=== FILE: README.md ===
# Checklist widget — state-transition model

A Dafny model of the logic inside `src/js/main.js`, the single script behind a
categorised checklist page. The page shows categories of checkbox items,
keeps a check mark and a thread of comments per item (with replies and
reaction counts), and sits behind a login against a fixed two-user list
whose display names and passwords can be edited.

The script mutates one global `state` object and one `USERS` array from
DOM event handlers. The model separates that logic from the DOM and from
`localStorage`. Each handler becomes a pure function from the old state to
the new one, and render becomes a function from categories, state and
search term to the visible rows.

Modules, one per concern of the script:

- `Wrappers` — `Option`.
- `Text` — the JavaScript string primitives the handlers use:
  - `trim`, with the exact ECMAScript white-space and line-terminator set;
  - `toLowerCase`, for ASCII and Latin-1 capitals;
  - `includes`.
- `Users` — the account list:
  - `getCurrentUser` (`CurrentIndex`, `CurrentUser`) and the comment author name (`Author`);
  - the login form (`Login`) and the profile form (`EditProfile`);
  - `saveUsers` / `loadUsers` (`SaveUsers`, `LoadUsers`).
- `Checklist` — the state (`map` from item key to `Entry`) and its transitions:
  - `SetChecked`, `AddComment`, `AddReaction`, `AddReply`, `Reset`;
  - `saveState` / `loadState` (`SaveState`, `LoadState`).
- `View` — the visible-row part of `render`:
  - the item key (`ItemKey`);
  - the search filter (`SearchTerm`, `Shown`, `Visible`);
  - the cards and rows (`Render`).
- `Session` — the handlers as the page runs them, signing comments and
  replies for the current user (`PostComment`, `PostReply`), and a page
  session as a sequence of events. It proves that the
  last check on an item wins, that without a reset nothing is ever removed
  and no reaction count goes down, and that N clicks on a reaction add N.

Source names used for fields: `senha` (password) and `nome` (display name)
are kept as in the source; the category fields `categoria`/`itens` are
`name`/`items`.

Item keys are built as `categoria + '_' + item`. Distinct (category, item)
pairs can therefore share a key, and then they share one check mark and one
comment thread: `View.KeysCanCollide` exhibits such a pair,
`View.ItemKeyInjective` proves keys distinct when no category name contains
an underscore, and `View.CheckShowsOnRows` shows that the next render after a
check gives the new mark to every row with the key.

The account list is modelled twice, because the script's start-up cannot
run `loadUsers` as intended (see "## Findings"): `Users.StartUsersAsWritten`
is what the script does, `Users.StartUsers` what it evidently means to do.

## Model

| member | source | states |
|---|---|---|
| `Text.TrimUnique` | src/js/main.js:254 | `trim` (`Text.Trim`) keeps exactly the middle of any split into leading white space, a middle with no white space at its ends, and trailing white space |
| `Text.TrimHasNoOuterSpace` | src/js/main.js:254 | the result of `trim` neither starts nor ends with white space |
| `Text.TrimOfTrimmed` | src/js/main.js:254 | a string with no white space at its ends is its own trim |
| `Text.TrimIdempotent` | src/js/main.js:254 | trimming twice is trimming once |
| `Text.TrimEmptyIff` | src/js/main.js:254-255 | the trimmed text is empty, so the submission is ignored, exactly when the text is all white space |
| `Text.LowerWithoutCapitals` | src/js/main.js:362 | text with no capitals is unchanged by lower-casing |
| `Text.LowerIdempotent` | src/js/main.js:86 | `toLowerCase` (`Text.Lower`, character by character) applied twice is applied once |
| `Text.ContainsIff` | src/js/main.js:55 | `includes` (`Text.Contains`) holds exactly when the term occurs at some offset of the label |
| `Users.FindFirst` | src/js/main.js:364 | `find` returns the first index whose element satisfies the test, and none exactly when no element does |
| `Users.CurrentIndex` | src/js/main.js:329-332 | the current user is the first account whose login equals the stored token (no earlier account has that login); there is none without a token or without such an account |
| `Users.Author` | src/js/main.js:258-259 | comments are signed with the current user's `nome`, or "Anônimo" when there is no current user |
| `Users.Login` | src/js/main.js:360-371 | login succeeds iff some account has login = lower(trim(typed user)) and password = trim(typed password); on success the token is that login, on failure the token is unchanged and the error message is set |
| `Users.LoginSelectsUser` | src/js/main.js:364-366 | after a successful login the current user has the typed login and, with unique logins, the typed password |
| `Users.BuiltinLoginLogsIn` | src/js/main.js:321-328 | with the built-in accounts a successful login leaves a non-empty token, so `isLoggedIn` (`Users.IsLoggedIn`) holds |
| `Users.EditProfile` | src/js/main.js:179-190 | a wrong current password changes nothing and reports the error; otherwise `nome` becomes the trimmed name, `senha` changes only for a non-blank new password, other accounts and all logins stay |
| `Users.EditKeepsCurrentUser` | src/js/main.js:179-190 | after a profile edit the token still selects the same account, and after a successful one new comments carry the new name |
| `Users.SaveUsers` | src/js/main.js:198-200 | the saved list has one record per account, in order |
| `Users.OverlayFrom` | src/js/main.js:205-210 | the loop leaves positions before `i` alone and overlays every later position with its saved record, if any |
| `Users.LoadUsers` | src/js/main.js:201-211 | the overlay loop run over an initialised list: length and every login are preserved; positions with a saved record take its `nome` and `senha`, all others are untouched |
| `Users.SaveLoadRoundTrip` | src/js/main.js:198-211 | saving accounts and overlaying the saved list onto a list with the same logins gives the accounts back |
| `Users.StartUsersAsWritten` | src/js/main.js:201-213 | as written, start-up stops (None) exactly when a `users` value is stored, and otherwise keeps the built-in list |
| `Users.EditBreaksNextStart` | src/js/main.js:179-213 | as written, a successful profile edit saves the list, and the next start-up stops on it |
| `Users.StartUsers` | src/js/main.js:201-213 | the intended start-up keeps the built-in logins; each account takes the name and password of the saved record at its position when there is one and is the built-in account otherwise, so with nothing stored it is the built-in list |
| `Users.EditSurvivesReload` | src/js/main.js:179-213 | with the intended start-up, an edit survives the reload: the next start restores the edited accounts, signs comments with the new name and accepts the new password, or the current one when the new-password field was blank |
| `Users.LoadUsersIdempotent` | src/js/main.js:201-211 | applying the same saved list twice is applying it once |
| `Users.BuiltinLoginsCanonical` | src/js/main.js:321-324 | built-in logins are distinct and already trimmed and lower case, before and after loading saved profiles |
| `Checklist.SetChecked` | src/js/main.js:68-71 | the key's check mark becomes the new value, its comments stay, the key is created if absent, every other key is unchanged |
| `Checklist.AddComment` | src/js/main.js:252-259 | blank text is a no-op; otherwise exactly one comment (author, trimmed text, no replies, no reactions) is appended after the key's existing comments, creating the entry if needed; the check mark and other keys are unchanged |
| `Checklist.AddReaction` | src/js/main.js:266-271 | the reaction's count on comment `idx` goes from its old value (0 if absent) to one more; every other reaction count, the comment's text, author and replies, the other comments, the check mark and the other keys are unchanged |
| `Checklist.AddReply` | src/js/main.js:305-313 | blank text is a no-op; otherwise exactly one reply is appended to comment `idx` only; the comment count, the other comments and the other keys are unchanged |
| `Checklist.LoadState` | src/js/main.js:17-20 | an absent or unreadable blob loads as the empty state; a saved one loads as itself |
| `Checklist.SaveLoadRoundTrip` | src/js/main.js:14-20 | reloading after `saveState` (`Checklist.SaveState`) restores the saved state exactly |
| `View.SearchTerm` | src/js/main.js:85-86 | the stored search term is the typed text lower-cased character by character, so it is already lower case |
| `View.Visible` | src/js/main.js:54-55 | every item passing the filter appears as often as in the category and no other item appears; an empty term shows all items in order |
| `View.VisibleSingle` | src/js/main.js:54-55 | a single item is kept exactly when it passes the filter |
| `View.VisibleAppend` | src/js/main.js:54-55 | the filter of a concatenation is the concatenation of the filters, so items keep their category order |
| `View.ShownIff` | src/js/main.js:55 | an item is shown iff the typed term is empty or occurs in the lower-cased label, and the filter ignores the label's case |
| `View.NothingVisible` | src/js/main.js:54-55 | when no item of a category passes the filter its row list is empty |
| `View.Render` | src/js/main.js:50-59 | one card per category, headed by its name, even with no visible items; row `j` is the `j`-th visible item with key `categoria + '_' + item`, checked only when the stored flag is true, and with the stored comments or none when the field is missing |
| `View.NoMatchShowsHeadersOnly` | src/js/main.js:50-55 | a search matching no item renders every header and no rows |
| `View.EmptySearchShowsAll` | src/js/main.js:54-55 | with an empty search every item has a row, in order |
| `View.KeysCanCollide` | src/js/main.js:56 | two different (category, item) pairs can have the same key |
| `View.ItemKeySameCategory` | src/js/main.js:56 | within one category, two items with the same key are the same item |
| `View.ItemKeyInjective` | src/js/main.js:56 | keys are distinct per pair when category names contain no underscore |
| `View.CheckShowsOnRows` | src/js/main.js:56-70 | the next render after a check shows the new mark on every row with that key, colliding items included, and leaves every other row unchanged |
| `View.ResetShowsClean` | src/js/main.js:90-94 | after a reset (`Checklist.Reset`, `state = {}`) every row is unchecked and has no comments |
| `View.CommentShowsOnRows` | src/js/main.js:252-262 | after a comment is posted, rows with the key show it last and every other row is unchanged |
| `Session.PostComment` | src/js/main.js:252-259 | blank text changes nothing; otherwise one comment is appended after the existing ones, signed by the current user, with the trimmed text, no replies and no reactions; the item's check mark and every other key are unchanged |
| `Session.PostReply` | src/js/main.js:305-313 | blank text changes nothing; otherwise one reply signed by the current user with the trimmed text is appended to comment `idx`; that comment's author, text and reactions, the other comments, the comment count, the check mark and every other key are unchanged |
| `Session.Step` | src/js/main.js:68-313 | one event of the checkbox (68-71), reset (90-94), comment (252-259), reaction (266-271) or reply (305-313) handler; it fails exactly when its handler would index a comment that is not there |
| `Session.RunAppend` | src/js/main.js:68-313 | events of the check, reset, comment, reaction and reply handlers run one after the other compose |
| `Session.LastCheckWins` | src/js/main.js:68-71 | after any event sequence the item's check mark is the value of its last check, when no reset follows |
| `Session.StepGrows` | src/js/main.js:68-313 | every event other than a reset (90-94), including a check (68-71), keeps every key, comment, reply and reaction, in place, and lowers no count |
| `Session.RunGrows` | src/js/main.js:68-313 | the same for any event sequence without a reset |
| `Session.ReactTimes` | src/js/main.js:266-271 | `n` clicks on one reaction of one comment raise its count by exactly `n` and change no other count |

## Findings

| source | as written | input that shows it | evidently intended | confidence | as-written member | corrected member |
|---|---|---|---|---|---|---|
| src/js/main.js:201-213 | `loadUsers()` is called at line 213, before `const USERS` is initialised at line 321; with a non-empty `users` string stored, start-up throws and the whole script stops (no login form, no checklist): text that parses makes the read of `USERS.length` at line 205 throw a ReferenceError, text that does not parse throws a SyntaxError at line 204; an empty string is skipped at line 203 | one successful profile edit (it calls `saveUsers`), then any page load | saved profiles overlaid onto the built-in accounts at start-up | high; not executed | `Users.StartUsersAsWritten`, `Users.EditBreaksNextStart` | `Users.StartUsers`, `Users.EditSurvivesReload` |

## Left out

- DOM construction, HTML templates, popups and their `close`, event wiring, the header, the profile dropdown and dark mode: presentation only. `render` is modelled only as the rows it shows.
- `localStorage` and `JSON.stringify`/`JSON.parse`: persistence is an abstract stored value. The state blob is `Absent`, `Corrupt` or `Saved(state)`. `Corrupt` covers text that fails to parse and text that parses to a falsy value. A blob that parses to a truthy non-object is not modelled.
- `Checklist.LoadState`: does not model stored entries whose fields hold unexpected JSON types. A non-boolean `checked` is one; comments stored as plain strings, the older format the popup still displays, are another. Absent fields and non-array `comments`/`replies` are modelled, as `None`.
- `Users.LoadUsers`: the saved list is taken already parsed. A stored `users` value that does not parse also throws at start-up, like any stored value does (see "## Findings"); `Users.StartUsersAsWritten` covers both as one stop.
- The `setTimeout` pulse after a check, `location.reload()`, `window.print()` and the `confirm` dialog before a reset: timers and host effects with no persisted meaning. Reset is modelled as the confirmed case.
- `Users.EditProfile` requires a current user. Without one, the profile popup reads `user.nome` while building its template and throws, so the form is never shown.
- Logout (`localStorage.removeItem('user_login')` followed by a reload): it only clears the token.
- The start-up guard and `init`, including the call to `renderSidebarActions`, which is not defined in the script.
- `Text.Lower`: does not model `toLowerCase` beyond ASCII and the Latin-1 capitals U+00C0..U+00DE. Other scripts and special casings are not modelled.
- `Text.Trim`: strings are sequences of Unicode scalar values, not UTF-16 code units. This changes nothing for the white-space set, which has no surrogates.
- The checkbox `change` handler saves but does not re-render. Rows of other items whose key collides keep a stale mark until the next render, which a search keystroke, a comment, reaction, reply, reset or reload triggers. `View.CheckShowsOnRows` is about that next render.
- `Session.Run`: the trace lemmas (`Session.LastCheckWins`, `Session.RunGrows`, `Session.ReactTimes`) cover only sessions in which no handler throws. In the page a failing handler stops only itself, and later events are still handled; through the UI a failure is reachable only from a stale popup.
- `Session.Run`: profile edits are not events, and the context (account list and session) is fixed for a run. A session with an edit is two runs with different contexts, tied together by `Users.EditKeepsCurrentUser`.
- `Session.Step`: when a reply handler fails on a missing comment, the model stops with `None`. The script first creates an empty entry and comments array in memory before it throws; that partial write is not modelled.
- `Checklist.AddReaction`: the reaction name is any string. The page's buttons send only the five names of `REACTIONS`.
- JavaScript's own object keys, such as a key spelling `__proto__`, are not modelled. `state` is a plain map.

=== FILE: checklist.dfy ===
/** The checklist state and the transitions the widget's event handlers
    apply to it: set checked, add a comment, react to a comment, reply to a
    comment, reset; plus its persistence as one stored blob. */
module Checklist {
  import opened Wrappers
  import Text

  /** A reply to a comment: author name and text. */
  datatype Reply = Reply(user: string, text: string)

  /** A comment. `replies` is None when the stored comment has no replies
      array and `reactions` is None when it has no reactions object; the
      handlers then start from an empty one. Reaction counts are kept per reaction name. */
  datatype Comment = Comment(user: string, text: string,
                             replies: Option<seq<Reply>>,
                             reactions: Option<map<string, nat>>)

  /** `state[key]`. `checked` is None while the field was never written;
      `comments` is None when the field is absent or not an array. */
  datatype Entry = Entry(checked: Option<bool>, comments: Option<seq<Comment>>)

  /** The whole state object, keyed by item key. */
  type State = map<string, Entry>

  /** `{}`, the entry the handlers create for a key seen for the first time. */
  const Blank: Entry := Entry(None, None)

  /** `state[key] || {}`. */
  function EntryAt(s: State, key: string): Entry {
    if key in s then s[key] else Blank
  }

  /** The comments an entry shows: the array, or empty when there is none. */
  function CommentsOf(e: Entry): seq<Comment> {
    e.comments.GetOr([])
  }

  function RepliesOf(c: Comment): seq<Reply> {
    c.replies.GetOr([])
  }

  function ReactionsOf(c: Comment): map<string, nat> {
    c.reactions.GetOr(map[])
  }

  /** `reactions[reaction] || 0`. */
  function Count(c: Comment, reaction: string): nat {
    var m := ReactionsOf(c);
    if reaction in m then m[reaction] else 0
  }

  /** The comment a new submission creates: empty replies, no reactions. */
  function NewComment(author: string, text: string): Comment {
    Comment(author, text, Some([]), Some(map[]))
  }

  /** The checkbox `change` handler: creates the entry if needed and stores
      the new flag, keeping the entry's comments. */
  function SetChecked(s: State, key: string, value: bool): (r: State)
    ensures r.Keys == s.Keys + {key}
    ensures r[key].checked == Some(value)
    ensures r[key].comments == EntryAt(s, key).comments
    ensures forall k :: k in s && k != key ==> r[k] == s[k]
  {
    s[key := EntryAt(s, key).(checked := Some(value))]
  }

  /** The comment popup's send handler. Blank text (after trimming) changes
      nothing; otherwise the trimmed text is appended as the last comment of
      the entry, which is created, and its comments array, if missing. */
  function AddComment(s: State, key: string, text: string, author: string): (r: State)
    ensures Text.Trim(text) == [] ==> r == s
    ensures Text.Trim(text) != [] ==>
      && r.Keys == s.Keys + {key}
      && CommentsOf(r[key]) == CommentsOf(EntryAt(s, key)) + [NewComment(author, Text.Trim(text))]
      && r[key].checked == EntryAt(s, key).checked
      && forall k :: k in s && k != key ==> r[k] == s[k]
  {
    var val := Text.Trim(text);
    if val == [] then s
    else
      var e := EntryAt(s, key);
      s[key := e.(comments := Some(CommentsOf(e) + [NewComment(author, val)]))]
  }

  /** The entry at `key` has an array of comments with index `idx` in range:
      what the reaction and reply handlers index without checking. */
  predicate HasComment(s: State, key: string, idx: nat) {
    key in s && s[key].comments.Some? && idx < |s[key].comments.value|
  }

  /** The comment at `idx` of `key`. */
  function CommentAt(s: State, key: string, idx: nat): Comment
    requires HasComment(s, key, idx)
  {
    s[key].comments.value[idx]
  }

  /** Replaces the comment at `idx` of `key`, nothing else. */
  function UpdateComment(s: State, key: string, idx: nat, c: Comment): (r: State)
    requires HasComment(s, key, idx)
  {
    var e := s[key];
    s[key := e.(comments := Some(e.comments.value[idx := c]))]
  }

  /** A reaction button's click handler: one more `reaction` on comment `idx`. */
  function AddReaction(s: State, key: string, idx: nat, reaction: string): (r: State)
    requires HasComment(s, key, idx)
    ensures r.Keys == s.Keys && HasComment(r, key, idx)
    ensures |CommentsOf(r[key])| == |CommentsOf(s[key])|
    ensures r[key].checked == s[key].checked
    ensures Count(CommentAt(r, key, idx), reaction) == Count(CommentAt(s, key, idx), reaction) + 1
    ensures forall x :: x != reaction ==> Count(CommentAt(r, key, idx), x) == Count(CommentAt(s, key, idx), x)
    ensures ReactionsOf(CommentAt(r, key, idx)).Keys == ReactionsOf(CommentAt(s, key, idx)).Keys + {reaction}
    ensures var c, c' := CommentAt(s, key, idx), CommentAt(r, key, idx);
      c'.user == c.user && c'.text == c.text && c'.replies == c.replies
    ensures forall j :: 0 <= j < |CommentsOf(s[key])| && j != idx ==> CommentsOf(r[key])[j] == CommentsOf(s[key])[j]
    ensures forall k :: k in s && k != key ==> r[k] == s[k]
  {
    var c := CommentAt(s, key, idx);
    var m := ReactionsOf(c);
    UpdateComment(s, key, idx, c.(reactions := Some(m[reaction := Count(c, reaction) + 1])))
  }

  /** The reply popup's send handler. Blank text changes nothing (and is
      rejected before the comment is looked up); otherwise the trimmed text
      is appended to the replies of comment `idx`. */
  function AddReply(s: State, key: string, idx: nat, text: string, author: string): (r: State)
    requires Text.Trim(text) == [] || HasComment(s, key, idx)
    ensures Text.Trim(text) == [] ==> r == s
    ensures Text.Trim(text) != [] ==>
      && r.Keys == s.Keys && HasComment(r, key, idx)
      && |CommentsOf(r[key])| == |CommentsOf(s[key])|
      && r[key].checked == s[key].checked
      && RepliesOf(CommentAt(r, key, idx)) == RepliesOf(CommentAt(s, key, idx)) + [Reply(author, Text.Trim(text))]
      && (var c, c' := CommentAt(s, key, idx), CommentAt(r, key, idx);
          c'.user == c.user && c'.text == c.text && c'.reactions == c.reactions)
      && (forall j :: 0 <= j < |CommentsOf(s[key])| && j != idx ==> CommentsOf(r[key])[j] == CommentsOf(s[key])[j])
      && forall k :: k in s && k != key ==> r[k] == s[k]
  {
    var val := Text.Trim(text);
    if val == [] then s
    else
      var c := CommentAt(s, key, idx);
      UpdateComment(s, key, idx, c.(replies := Some(RepliesOf(c) + [Reply(author, val)])))
  }

  /** The reset handler (once confirmed): `state = {}`. */
  function Reset(): State {
    map[]
  }

  /** What `localStorage` holds under the state key: nothing, text that does
      not parse to a truthy value, or a saved state. */
  datatype Stored = Absent | Corrupt | Saved(state: State)

  /** `saveState`: the whole state is written on every change. */
  function SaveState(s: State): Stored {
    Saved(s)
  }

  /** `loadState`: a missing or unreadable blob gives the empty state. */
  function LoadState(stored: Stored): (s: State)
    ensures stored.Saved? ==> s == stored.state
    ensures !stored.Saved? ==> s == map[]
  {
    match stored
    case Saved(st) => st
    case _ => map[]
  }

  /** Reloading the page after a save restores exactly the saved state. */
  lemma SaveLoadRoundTrip(s: State)
    ensures LoadState(SaveState(s)) == s
  {
  }
}

=== FILE: session.dfy ===
/** A page session as a sequence of user events applied to the state, and
    what the sequence guarantees: the last check of an item wins, nothing
    short of a reset removes comments, replies or reactions, and N clicks
    on a reaction add N. */
module Session {
  import opened Wrappers
  import Text
  import opened Checklist
  import Users

  /** Who is at the page while events are handled: the account list and the
      stored session token. New comments and replies are signed for them. */
  datatype Context = Context(users: seq<Users.User>, session: Option<string>)

  /** The comment popup's send handler as a whole: the comment is signed by
      the current user. Blank text changes nothing; otherwise the new last
      comment of the key carries the signer's name and the trimmed text,
      and nothing else in the state changes. */
  function PostComment(s: State, ctx: Context, key: string, text: string): (r: State)
    ensures Text.Trim(text) == [] ==> r == s
    ensures Text.Trim(text) != [] ==>
      && r.Keys == s.Keys + {key}
      && r[key].checked == EntryAt(s, key).checked
      && (forall k :: k in s && k != key ==> r[k] == s[k])
      && |CommentsOf(r[key])| == |CommentsOf(EntryAt(s, key))| + 1
      && var cs := CommentsOf(r[key]);
      && cs[..|cs| - 1] == CommentsOf(EntryAt(s, key))
      && cs[|cs| - 1].user == Users.Author(ctx.users, ctx.session)
      && cs[|cs| - 1].text == Text.Trim(text)
      && RepliesOf(cs[|cs| - 1]) == [] && ReactionsOf(cs[|cs| - 1]) == map[]
  {
    AddComment(s, key, text, Users.Author(ctx.users, ctx.session))
  }

  /** The reply popup's send handler as a whole: blank text changes nothing;
      otherwise the new last reply of comment `idx` carries the signer's
      name and the trimmed text, and nothing else in the state changes. */
  function PostReply(s: State, ctx: Context, key: string, idx: nat, text: string): (r: State)
    requires Text.Trim(text) == [] || HasComment(s, key, idx)
    ensures Text.Trim(text) == [] ==> r == s
    ensures Text.Trim(text) != [] ==>
      && r.Keys == s.Keys && HasComment(r, key, idx)
      && |CommentsOf(r[key])| == |CommentsOf(s[key])|
      && r[key].checked == s[key].checked
      && (var c, c' := CommentAt(s, key, idx), CommentAt(r, key, idx);
          c'.user == c.user && c'.text == c.text && c'.reactions == c.reactions)
      && (forall j :: 0 <= j < |CommentsOf(s[key])| && j != idx ==> CommentsOf(r[key])[j] == CommentsOf(s[key])[j])
      && (forall k :: k in s && k != key ==> r[k] == s[k])
      && |RepliesOf(CommentAt(r, key, idx))| == |RepliesOf(CommentAt(s, key, idx))| + 1
      && var rs := RepliesOf(CommentAt(r, key, idx));
      && rs[..|rs| - 1] == RepliesOf(CommentAt(s, key, idx))
      && rs[|rs| - 1] == Reply(Users.Author(ctx.users, ctx.session), Text.Trim(text))
  {
    AddReply(s, key, idx, text, Users.Author(ctx.users, ctx.session))
  }

  /** One handled user event. */
  datatype Event =
    | Check(key: string, value: bool)
    | Post(key: string, text: string)
    | React(key: string, idx: nat, reaction: string)
    | Answer(key: string, idx: nat, text: string)
    | Clear

  /** The handler for `e` runs to the end; otherwise it stops with a
      TypeError reading a comment that is not there. */
  predicate Enabled(s: State, e: Event) {
    match e
    case React(key, idx, _) => HasComment(s, key, idx)
    case Answer(key, idx, text) => Text.Trim(text) == [] || HasComment(s, key, idx)
    case _ => true
  }

  /** The state after one event handled for `ctx`; None when the handler
      would stop with an error. */
  function Step(s: State, ctx: Context, e: Event): (r: Option<State>)
    ensures r.Some? <==> Enabled(s, e)
  {
    if !Enabled(s, e) then None
    else match e
      case Check(key, value) => Some(SetChecked(s, key, value))
      case Post(key, text) => Some(PostComment(s, ctx, key, text))
      case React(key, idx, reaction) => Some(AddReaction(s, key, idx, reaction))
      case Answer(key, idx, text) => Some(PostReply(s, ctx, key, idx, text))
      case Clear => Some(Reset())
  }

  /** The state after a sequence of events, None once a handler fails. The
      page would go on handling later events after a failed one; a run that
      stops there covers only sessions in which no handler throws. */
  function Run(s: State, ctx: Context, es: seq<Event>): Option<State>
    decreases |es|
  {
    if es == [] then Some(s)
    else match Step(s, ctx, es[0])
      case None => None
      case Some(t) => Run(t, ctx, es[1..])
  }

  /** Running two sequences one after the other is running their
      concatenation. */
  lemma {:induction false} RunAppend(s: State, ctx: Context, a: seq<Event>, b: seq<Event>)
    ensures Run(s, ctx, a + b) ==
      match Run(s, ctx, a)
      case None => None
      case Some(t) => Run(t, ctx, b)
    decreases |a|
  {
    if a == [] {
      assert a + b == b;
    } else {
      assert (a + b)[1..] == a[1..] + b;
      match Step(s, ctx, a[0])
      case None =>
      case Some(t) => RunAppend(t, ctx, a[1..], b);
    }
  }

  /** `e` neither resets the state nor sets the check mark of `key`. */
  predicate LeavesCheck(e: Event, key: string) {
    !e.Clear? && !(e.Check? && e.key == key)
  }

  /** Events that leave the check mark of `key` alone keep it. */
  lemma {:induction false} CheckKept(t: State, ctx: Context, es: seq<Event>, key: string)
    requires key in t
    requires Run(t, ctx, es).Some?
    requires forall j :: 0 <= j < |es| ==> LeavesCheck(es[j], key)
    ensures key in Run(t, ctx, es).value
    ensures Run(t, ctx, es).value[key].checked == t[key].checked
    decreases |es|
  {
    if es != [] {
      var u := Step(t, ctx, es[0]).value;
      assert LeavesCheck(es[0], key);
      CheckKept(u, ctx, es[1..], key);
    }
  }

  /** After any sequence of events, the check mark of an item is the value
      of the last check event on its key, provided no reset follows it. */
  lemma LastCheckWins(s: State, ctx: Context, pre: seq<Event>, key: string, value: bool, post: seq<Event>)
    requires Run(s, ctx, pre + [Check(key, value)] + post).Some?
    requires forall j :: 0 <= j < |post| ==> LeavesCheck(post[j], key)
    ensures var t := Run(s, ctx, pre + [Check(key, value)] + post).value;
      key in t && t[key].checked == Some(value)
  {
    RunAppend(s, ctx, pre + [Check(key, value)], post);
    RunAppend(s, ctx, pre, [Check(key, value)]);
    var u := Run(s, ctx, pre).value;
    var v := SetChecked(u, key, value);
    assert Run(u, ctx, [Check(key, value)]) == Some(v);
    CheckKept(v, ctx, post, key);
  }

  /** `d` is `c` possibly with more replies appended and higher reaction counts. */
  ghost predicate CommentGrows(c: Comment, d: Comment) {
    && d.user == c.user && d.text == c.text
    && RepliesOf(c) <= RepliesOf(d)
    && forall x :: Count(c, x) <= Count(d, x)
  }

  /** `f` keeps every comment of `e`, in place, each possibly grown. */
  ghost predicate EntryGrows(e: Entry, f: Entry) {
    && |CommentsOf(e)| <= |CommentsOf(f)|
    && forall j :: 0 <= j < |CommentsOf(e)| ==> CommentGrows(CommentsOf(e)[j], CommentsOf(f)[j])
  }

  /** `t` keeps every key of `s`, and every comment, reply and reaction. */
  ghost predicate Grows(s: State, t: State) {
    forall k :: k in s ==> k in t && EntryGrows(s[k], t[k])
  }

  lemma GrowsTransitive(s: State, t: State, u: State)
    requires Grows(s, t) && Grows(t, u)
    ensures Grows(s, u)
  {
    forall k | k in s ensures k in u && EntryGrows(s[k], u[k]) {
      var e, f, g := s[k], t[k], u[k];
      forall j | 0 <= j < |CommentsOf(e)| ensures CommentGrows(CommentsOf(e)[j], CommentsOf(g)[j]) {
        var a, b, c := CommentsOf(e)[j], CommentsOf(f)[j], CommentsOf(g)[j];
        assert CommentGrows(a, b) && CommentGrows(b, c);
        forall x ensures Count(a, x) <= Count(c, x) {
          assert Count(a, x) <= Count(b, x) <= Count(c, x);
        }
      }
    }
  }

  /** Every event other than a reset only adds to the state. */
  lemma StepGrows(s: State, ctx: Context, e: Event)
    requires Enabled(s, e) && !e.Clear?
    ensures Grows(s, Step(s, ctx, e).value)
  {
    var t := Step(s, ctx, e).value;
    forall k | k in s ensures k in t && EntryGrows(s[k], t[k]) {
      var cs, ct := CommentsOf(s[k]), CommentsOf(t[k]);
      forall j | 0 <= j < |cs| ensures CommentGrows(cs[j], ct[j]) {
        match e
        case Check(key, value) =>
        case Post(key, text) =>
          if Text.Trim(text) != [] && k == key {
            assert ct == cs + [NewComment(Users.Author(ctx.users, ctx.session), Text.Trim(text))];
            assert ct[j] == cs[j];
          }
        case React(key, idx, reaction) =>
          if k == key && j == idx {
            var c, d := cs[j], ct[j];
            forall x ensures Count(c, x) <= Count(d, x) {
            }
          }
        case Answer(key, idx, text) =>
      }
    }
  }

  /** A sequence of events without a reset only adds to the state: no
      comment, reply or reaction is ever removed and no count goes down. */
  lemma {:induction false} RunGrows(s: State, ctx: Context, es: seq<Event>)
    requires Run(s, ctx, es).Some?
    requires forall j :: 0 <= j < |es| ==> !es[j].Clear?
    ensures Grows(s, Run(s, ctx, es).value)
    decreases |es|
  {
    if es == [] {
      assert Run(s, ctx, es).value == s;
    } else {
      var t := Step(s, ctx, es[0]).value;
      StepGrows(s, ctx, es[0]);
      RunGrows(t, ctx, es[1..]);
      GrowsTransitive(s, t, Run(s, ctx, es).value);
    }
  }

  /** `n` copies of one event. */
  function Repeat(e: Event, n: nat): (es: seq<Event>)
    ensures |es| == n
  {
    seq(n, _ => e)
  }

  /** Clicking the same reaction on the same comment `n` times raises its
      count by exactly `n` and leaves every other reaction's count alone. */
  lemma {:induction false} ReactTimes(s: State, ctx: Context, key: string, idx: nat, reaction: string, n: nat)
    requires HasComment(s, key, idx)
    ensures var r := Run(s, ctx, Repeat(React(key, idx, reaction), n));
      && r.Some? && HasComment(r.value, key, idx)
      && Count(CommentAt(r.value, key, idx), reaction) == Count(CommentAt(s, key, idx), reaction) + n
      && forall x :: x != reaction ==> Count(CommentAt(r.value, key, idx), x) == Count(CommentAt(s, key, idx), x)
    decreases n
  {
    var e := React(key, idx, reaction);
    if n > 0 {
      var t := AddReaction(s, key, idx, reaction);
      assert Repeat(e, n)[1..] == Repeat(e, n - 1);
      assert Step(s, ctx, e) == Some(t);
      ReactTimes(t, ctx, key, idx, reaction, n - 1);
    } else {
      assert Repeat(e, n) == [];
    }
  }
}

=== FILE: text.dfy ===
/** The three string primitives the widget relies on, with JavaScript's
    meaning: `String.prototype.trim`, `toLowerCase` and `includes`. */
module Text {

  /** The code points `trim` strips: ECMAScript WhiteSpace (tab, vertical tab,
      form feed, space, no-break space, byte-order mark and the Unicode
      space separators) and LineTerminator (LF, CR, U+2028, U+2029). */
  predicate IsSpace(c: char) {
    || c == '\t' || c == '\n' || c == '\U{000B}' || c == '\U{000C}' || c == '\r'
    || c == ' ' || c == '\U{00A0}' || c == '\U{1680}'
    || ('\U{2000}' <= c <= '\U{200A}')
    || c == '\U{2028}' || c == '\U{2029}' || c == '\U{202F}' || c == '\U{205F}'
    || c == '\U{3000}' || c == '\U{FEFF}'
  }

  /** Every character of `s` in `[lo, hi)` is white space. */
  ghost predicate SpaceIn(s: string, lo: int, hi: int)
    requires 0 <= lo && hi <= |s|
  {
    forall i :: lo <= i < hi ==> IsSpace(s[i])
  }

  ghost predicate AllSpace(s: string) {
    SpaceIn(s, 0, |s|)
  }

  /** `[a, b)` delimits the part of `s` that `trim` keeps: white space before
      `a` and from `b` on, and a kept part that does not start or end with
      white space. */
  ghost predicate TrimmedAt(s: string, a: nat, b: nat) {
    && a <= b <= |s|
    && SpaceIn(s, 0, a) && SpaceIn(s, b, |s|)
    && (a == b || (!IsSpace(s[a]) && !IsSpace(s[b - 1])))
  }

  /** The first non-space position at or after `i` (or `|s|`). */
  function SkipSpace(s: string, i: nat): (a: nat)
    requires i <= |s| && SpaceIn(s, 0, i)
    ensures i <= a <= |s| && SpaceIn(s, 0, a)
    ensures a == |s| || !IsSpace(s[a])
    decreases |s| - i
  {
    if i < |s| && IsSpace(s[i]) then SkipSpace(s, i + 1) else i
  }

  /** The end of the non-space part of `s[a..j]`, scanning back from `j`. */
  function SkipSpaceBack(s: string, a: nat, j: nat): (b: nat)
    requires a <= j <= |s| && SpaceIn(s, j, |s|)
    ensures a <= b <= j && SpaceIn(s, b, |s|)
    ensures b == a || !IsSpace(s[b - 1])
    decreases j
  {
    if j > a && IsSpace(s[j - 1]) then SkipSpaceBack(s, a, j - 1) else j
  }

  /** The bounds of the part of `s` that `trim` keeps. */
  function TrimBounds(s: string): (p: (nat, nat))
    ensures TrimmedAt(s, p.0, p.1)
  {
    var a := SkipSpace(s, 0);
    (a, SkipSpaceBack(s, a, |s|))
  }

  /** `s.trim()`. */
  function Trim(s: string): string {
    var p := TrimBounds(s);
    s[p.0..p.1]
  }

  /** Trimming is determined by where the white space ends: whichever split
      of `s` into leading white space, a middle that neither starts nor ends
      with white space and trailing white space is chosen, the middle is
      `s.trim()`. */
  lemma TrimUnique(s: string, a: nat, b: nat)
    requires TrimmedAt(s, a, b)
    ensures Trim(s) == s[a..b]
  {
    var p := TrimBounds(s);
    if a < b {
      assert !IsSpace(s[a]);
      assert p.0 == a;
      assert !IsSpace(s[b - 1]);
      assert p.1 == b;
    } else {
      assert p.0 == p.1;
    }
  }

  /** The result of `trim` neither starts nor ends with white space. */
  lemma TrimHasNoOuterSpace(s: string)
    ensures var t := Trim(s); t == [] || (!IsSpace(t[0]) && !IsSpace(t[|t| - 1]))
  {
  }

  /** A string with no white space at either end is its own trim. */
  lemma TrimOfTrimmed(s: string)
    requires s == [] || (!IsSpace(s[0]) && !IsSpace(s[|s| - 1]))
    ensures Trim(s) == s
  {
    assert s[0..|s|] == s;
    assert Trim(s) == s[0..|s|] by { TrimUnique(s, 0, |s|); }
  }

  /** Trimming twice changes nothing. */
  lemma TrimIdempotent(s: string)
    ensures Trim(Trim(s)) == Trim(s)
  {
    var t := Trim(s);
    TrimUnique(t, 0, |t|);
  }

  /** `s.trim()` is empty exactly when `s` is nothing but white space. */
  lemma TrimEmptyIff(s: string)
    ensures Trim(s) == [] <==> AllSpace(s)
  {
    var p := TrimBounds(s);
    if AllSpace(s) {
      TrimUnique(s, 0, 0);
    } else {
      var i :| 0 <= i < |s| && !IsSpace(s[i]);
      assert p.0 <= i < p.1;
    }
  }

  /** The upper-case letters `toLowerCase` changes and this model covers:
      ASCII A-Z and the Latin-1 capitals U+00C0..U+00DE except U+00D7 (the
      multiplication sign). */
  predicate IsUpper(c: char) {
    ('A' <= c <= 'Z') || ('\U{00C0}' <= c <= '\U{00DE}' && c != '\U{00D7}')
  }

  function LowerChar(c: char): (d: char)
    ensures !IsUpper(d)
    ensures IsUpper(c) ==> d as int == c as int + 32
    ensures !IsUpper(c) ==> d == c
  {
    if IsUpper(c) then (c as int + 32) as char else c
  }

  /** `s.toLowerCase()`, character by character. */
  function Lower(s: string): (r: string)
    ensures |r| == |s|
    ensures forall i :: 0 <= i < |s| ==> r[i] == LowerChar(s[i])
  {
    seq(|s|, i requires 0 <= i < |s| => LowerChar(s[i]))
  }

  /** A string without capitals is its own lower case. */
  lemma LowerWithoutCapitals(s: string)
    requires forall i :: 0 <= i < |s| ==> !IsUpper(s[i])
    ensures Lower(s) == s
  {
  }

  /** Lower-casing twice changes nothing. */
  lemma LowerIdempotent(s: string)
    ensures Lower(Lower(s)) == Lower(s)
  {
  }

  /** `t` occurs in `s` at offset `i`. */
  ghost predicate OccursAt(s: string, t: string, i: int) {
    0 <= i <= |s| - |t| && s[i..i + |t|] == t
  }

  /** `s.includes(t)`: `t` is a prefix of `s` or of one of its suffixes. */
  predicate Contains(s: string, t: string)
    decreases |s|
  {
    (|t| <= |s| && s[..|t|] == t) || (|s| > 0 && Contains(s[1..], t))
  }

  /** `Contains` holds exactly when `t` occurs somewhere in `s`. */
  lemma {:induction false} ContainsIff(s: string, t: string)
    ensures Contains(s, t) <==> exists i :: OccursAt(s, t, i)
    decreases |s|
  {
    if |t| <= |s| && s[..|t|] == t {
      assert OccursAt(s, t, 0);
    } else if |s| > 0 {
      ContainsIff(s[1..], t);
      if Contains(s[1..], t) {
        var i :| OccursAt(s[1..], t, i);
        assert s[1..][i..i + |t|] == s[i + 1..i + 1 + |t|];
        assert OccursAt(s, t, i + 1);
      } else {
        forall i | OccursAt(s, t, i) ensures false {
          assert i != 0;
          assert s[1..][i - 1..i - 1 + |t|] == s[i..i + |t|];
          assert OccursAt(s[1..], t, i - 1);
        }
      }
    }
  }
}

=== FILE: users.dfy ===
/** The fixed user list, the session token, login, profile edit and the
    overlay of saved profiles onto the built-in users. */
module Users {
  import opened Wrappers
  import Text

  /** One account: the login name, the password (`senha`) and the display
      name (`nome`). */
  datatype User = User(login: string, senha: string, nome: string)

  /** The list the page starts from before any saved profiles are applied. */
  const BuiltinUsers: seq<User> := [
    User("satina", "satina123", "S\U{00E1}tina"),
    User("matheus", "matheus123", "Matheus")
  ]

  /** The author name used when nobody is logged in. */
  const Anonymous: string := "An\U{00F4}nimo"

  const LoginError: string := "Usu\U{00E1}rio ou senha inv\U{00E1}lidos"
  const WrongPasswordError: string := "Senha atual incorreta"

  /** The index of the first element satisfying `p`, like `Array.prototype.find`. */
  function FindFirst<T>(xs: seq<T>, p: T -> bool): (r: Option<nat>)
    ensures r.Some? ==> r.value < |xs| && p(xs[r.value])
    ensures r.Some? ==> forall j :: 0 <= j < r.value ==> !p(xs[j])
    ensures r.None? <==> forall j :: 0 <= j < |xs| ==> !p(xs[j])
  {
    if |xs| == 0 then None
    else if p(xs[0]) then Some(0)
    else match FindFirst(xs[1..], p)
      case None => None
      case Some(i) => Some(i + 1)
  }

  ghost predicate UniqueLogins(users: seq<User>) {
    forall i, j :: 0 <= i < j < |users| ==> users[i].login != users[j].login
  }

  /** The two lists hold accounts with the same logins, position by position. */
  ghost predicate SameLogins(users: seq<User>, other: seq<User>) {
    |users| == |other| && forall i :: 0 <= i < |users| ==> users[i].login == other[i].login
  }

  /** Where `getCurrentUser` finds the user named by the session token: the
      first user whose login equals it; no user when there is no token. */
  function CurrentIndex(users: seq<User>, session: Option<string>): (r: Option<nat>)
    ensures r.Some? ==> session.Some? && r.value < |users| && users[r.value].login == session.value
    ensures r.Some? ==> forall j :: 0 <= j < r.value ==> users[j].login != session.value
    ensures r.None? <==> session.None? || forall j :: 0 <= j < |users| ==> users[j].login != session.value
  {
    match session
    case None => None
    case Some(token) => FindFirst(users, (u: User) => u.login == token)
  }

  function CurrentUser(users: seq<User>, session: Option<string>): Option<User> {
    match CurrentIndex(users, session)
    case None => None
    case Some(i) => Some(users[i])
  }

  /** The name new comments and replies are signed with. */
  function Author(users: seq<User>, session: Option<string>): (name: string)
    ensures CurrentIndex(users, session).None? ==> name == Anonymous
    ensures CurrentIndex(users, session).Some? ==> name == users[CurrentIndex(users, session).value].nome
  {
    match CurrentUser(users, session)
    case None => Anonymous
    case Some(u) => u.nome
  }

  /** `isLoggedIn`: a token is stored and it is not the empty string. */
  predicate IsLoggedIn(session: Option<string>) {
    session.Some? && session.value != []
  }

  predicate Accepts(u: User, login: string, senha: string) {
    u.login == login && u.senha == senha
  }

  /** The result of submitting the login form: the session token afterwards
      and the error message shown, if any. */
  datatype LoginOutcome = LoginOutcome(session: Option<string>, error: Option<string>)

  /** The login form's submit handler: the typed login is trimmed and
      lower-cased, the password trimmed; the first user with both equal
      has its login stored as the token. */
  function Login(users: seq<User>, session: Option<string>, inputUser: string, inputPass: string): (r: LoginOutcome)
    ensures r.error.None? <==>
      exists i :: 0 <= i < |users| && Accepts(users[i], Text.Lower(Text.Trim(inputUser)), Text.Trim(inputPass))
    ensures r.error.None? ==> r.session == Some(Text.Lower(Text.Trim(inputUser)))
    ensures r.error.Some? ==> r.session == session && r.error == Some(LoginError)
  {
    var login := Text.Lower(Text.Trim(inputUser));
    var pass := Text.Trim(inputPass);
    match FindFirst(users, (u: User) => Accepts(u, login, pass))
    case Some(i) => LoginOutcome(Some(users[i].login), None)
    case None => LoginOutcome(session, Some(LoginError))
  }

  /** After a successful login the current user is an account with the typed
      login, and with unique logins it is the account whose password matched. */
  lemma LoginSelectsUser(users: seq<User>, session: Option<string>, inputUser: string, inputPass: string)
    requires Login(users, session, inputUser, inputPass).error.None?
    ensures var s := Login(users, session, inputUser, inputPass).session;
      && CurrentIndex(users, s).Some?
      && users[CurrentIndex(users, s).value].login == Text.Lower(Text.Trim(inputUser))
      && (UniqueLogins(users) ==> users[CurrentIndex(users, s).value].senha == Text.Trim(inputPass))
  {
    var login := Text.Lower(Text.Trim(inputUser));
    var i :| 0 <= i < |users| && Accepts(users[i], login, Text.Trim(inputPass));
    assert CurrentIndex(users, Some(login)).Some?;
  }

  /** With the built-in accounts, a successful login leaves a non-empty token. */
  lemma BuiltinLoginLogsIn(session: Option<string>, inputUser: string, inputPass: string)
    requires Login(BuiltinUsers, session, inputUser, inputPass).error.None?
    ensures IsLoggedIn(Login(BuiltinUsers, session, inputUser, inputPass).session)
  {
    var login := Text.Lower(Text.Trim(inputUser));
    var i :| 0 <= i < |BuiltinUsers| && Accepts(BuiltinUsers[i], login, Text.Trim(inputPass));
    assert login == BuiltinUsers[i].login;
  }

  /** The result of submitting the profile form: the user list afterwards and
      the error message shown, if any. */
  datatype EditOutcome = EditOutcome(users: seq<User>, error: Option<string>)

  /** The profile form's submit handler for the current user. A wrong current
      password is rejected and nothing changes; otherwise the display name is
      replaced and the password only when a non-blank new one was typed. */
  function EditProfile(users: seq<User>, session: Option<string>, nomeIn: string, atualIn: string, novaIn: string): (r: EditOutcome)
    requires CurrentIndex(users, session).Some?
    ensures SameLogins(r.users, users)
    ensures var i := CurrentIndex(users, session).value;
      if Text.Trim(atualIn) != users[i].senha then
        r == EditOutcome(users, Some(WrongPasswordError))
      else
        && r.error.None?
        && r.users[i].nome == Text.Trim(nomeIn)
        && r.users[i].senha == (if Text.Trim(novaIn) != [] then Text.Trim(novaIn) else users[i].senha)
        && forall j :: 0 <= j < |users| && j != i ==> r.users[j] == users[j]
  {
    var i := CurrentIndex(users, session).value;
    var u := users[i];
    if Text.Trim(atualIn) != u.senha then
      EditOutcome(users, Some(WrongPasswordError))
    else
      var nova := Text.Trim(novaIn);
      var senha := if nova != [] then nova else u.senha;
      EditOutcome(users[i := User(u.login, senha, Text.Trim(nomeIn))], None)
  }

  /** A profile edit keeps the session pointing at the same account, and new
      comments are then signed with the name just saved. */
  lemma EditKeepsCurrentUser(users: seq<User>, session: Option<string>, nomeIn: string, atualIn: string, novaIn: string)
    requires CurrentIndex(users, session).Some?
    ensures var r := EditProfile(users, session, nomeIn, atualIn, novaIn);
      && CurrentIndex(r.users, session) == CurrentIndex(users, session)
      && (r.error.None? ==> Author(r.users, session) == Text.Trim(nomeIn))
  {
    var r := EditProfile(users, session, nomeIn, atualIn, novaIn);
    var i := CurrentIndex(users, session).value;
    assert r.users[i].login == session.value;
  }

  /** In the list held in memory, after a successful edit the new password
      logs in with the account's login, or the current one if the new-password
      field was blank, as long as that login is already in the form login
      typing produces (trimmed and lower case) and logins are unique. */
  lemma EditThenLogin(users: seq<User>, session: Option<string>, nomeIn: string, atualIn: string, novaIn: string, other: Option<string>)
    requires CurrentIndex(users, session).Some?
    requires UniqueLogins(users)
    requires CanonicalLogin(session.value)
    requires Text.Trim(atualIn) == users[CurrentIndex(users, session).value].senha
    ensures var r := EditProfile(users, session, nomeIn, atualIn, novaIn);
      && (Text.Trim(novaIn) != [] ==> Login(r.users, other, session.value, novaIn) == LoginOutcome(session, None))
      && (Text.Trim(novaIn) == [] ==> Login(r.users, other, session.value, atualIn) == LoginOutcome(session, None))
  {
    var r := EditProfile(users, session, nomeIn, atualIn, novaIn);
    var i := CurrentIndex(users, session).value;
    if Text.Trim(novaIn) != [] {
      Text.TrimIdempotent(novaIn);
      assert Accepts(r.users[i], Text.Lower(Text.Trim(session.value)), Text.Trim(novaIn));
    } else {
      assert Accepts(r.users[i], Text.Lower(Text.Trim(session.value)), Text.Trim(atualIn));
    }
  }

  /** What `JSON.parse(localStorage.getItem('users'))[i]` holds: nothing (a
      falsy entry or past the end) or a record whose `nome` and `senha` are
      read back. */
  type SavedUsers = seq<Option<User>>

  /** `saveUsers`: every account is written in order. */
  function SaveUsers(users: seq<User>): (saved: SavedUsers)
    ensures |saved| == |users|
    ensures forall i :: 0 <= i < |users| ==> saved[i] == Some(users[i])
  {
    seq(|users|, i requires 0 <= i < |users| => Some(users[i]))
  }

  /** The saved record for position `i`, if any. */
  function SavedAt(saved: SavedUsers, i: nat): Option<User> {
    if i < |saved| then saved[i] else None
  }

  /** One step of the `loadUsers` loop: a saved record overwrites the name
      and password of the account at the same position, never its login. */
  function Overlay(u: User, entry: Option<User>): User {
    match entry
    case None => u
    case Some(e) => User(u.login, e.senha, e.nome)
  }

  /** The `loadUsers` loop from position `i` on. */
  function OverlayFrom(users: seq<User>, saved: SavedUsers, i: nat): (r: seq<User>)
    requires i <= |users|
    ensures |r| == |users|
    ensures forall j :: 0 <= j < i ==> r[j] == users[j]
    ensures forall j :: i <= j < |users| ==> r[j] == Overlay(users[j], SavedAt(saved, j))
    decreases |users| - i
  {
    if i == |users| then users
    else OverlayFrom(users[i := Overlay(users[i], SavedAt(saved, i))], saved, i + 1)
  }

  /** The overlay loop of `loadUsers`, run over an initialised account list:
      when a saved list exists, each account takes the name and password
      saved at its position; logins and the list length never change. See
      `StartUsersAsWritten` for what the script's start-up actually does. */
  function LoadUsers(users: seq<User>, stored: Option<SavedUsers>): (r: seq<User>)
    ensures SameLogins(r, users)
    ensures forall i :: 0 <= i < |users| ==>
      if stored.Some? && i < |stored.value| && stored.value[i].Some? then
        r[i].nome == stored.value[i].value.nome && r[i].senha == stored.value[i].value.senha
      else r[i] == users[i]
  {
    match stored
    case None => users
    case Some(saved) => OverlayFrom(users, saved, 0)
  }

  /** Saving the accounts and overlaying the saved list onto a list with the
      same logins gives the accounts back. */
  lemma SaveLoadRoundTrip(base: seq<User>, users: seq<User>)
    requires SameLogins(users, base)
    ensures LoadUsers(base, Some(SaveUsers(users))) == users
  {
    var r := LoadUsers(base, Some(SaveUsers(users)));
    forall i | 0 <= i < |users| ensures r[i] == users[i] {
      assert SaveUsers(users)[i] == Some(users[i]);
    }
  }

  /** Loading the same saved list twice changes nothing more. */
  lemma LoadUsersIdempotent(users: seq<User>, stored: Option<SavedUsers>)
    ensures LoadUsers(LoadUsers(users, stored), stored) == LoadUsers(users, stored)
  {
  }

  /** The accounts the script holds after its start-up code, as written.
      `loadUsers()` is called before `const USERS` is initialised, so as soon
      as a `users` value is stored the call throws (a ReferenceError reading
      `USERS.length`, or earlier a parse error) and the whole script stops:
      None. With nothing stored (or an empty string) the built-in list stays. */
  function StartUsersAsWritten(stored: Option<SavedUsers>): (r: Option<seq<User>>)
    ensures r.None? <==> stored.Some?
    ensures r.Some? ==> r.value == BuiltinUsers
  {
    if stored.Some? then None else Some(BuiltinUsers)
  }

  /** As written, one successful profile edit breaks every later page load:
      the edit saves the account list, and the next start-up stops on it. */
  lemma EditBreaksNextStart(users: seq<User>, session: Option<string>, nomeIn: string, atualIn: string, novaIn: string)
    requires CurrentIndex(users, session).Some?
    requires Text.Trim(atualIn) == users[CurrentIndex(users, session).value].senha
    ensures var r := EditProfile(users, session, nomeIn, atualIn, novaIn);
      r.error.None? && StartUsersAsWritten(Some(SaveUsers(r.users))).None?
  {
  }

  /** The start-up as evidently intended: the saved profiles overlaid onto
      the built-in list once it exists. */
  function StartUsers(stored: Option<SavedUsers>): (r: seq<User>)
    ensures SameLogins(r, BuiltinUsers)
    ensures stored.None? ==> r == BuiltinUsers
    ensures forall i :: 0 <= i < |r| ==> r[i] == Overlay(BuiltinUsers[i], SavedAt(stored.GetOr([]), i))
  {
    LoadUsers(BuiltinUsers, stored)
  }

  /** With the intended start-up, a profile edit survives the reload: the
      next start restores the edited accounts, signs comments with the new
      name, and accepts the new password for the account's login, or the
      current one when the new-password field was left blank. */
  lemma EditSurvivesReload(stored: Option<SavedUsers>, session: Option<string>, nomeIn: string, atualIn: string, novaIn: string, other: Option<string>)
    requires CurrentIndex(StartUsers(stored), session).Some?
    requires Text.Trim(atualIn) == StartUsers(stored)[CurrentIndex(StartUsers(stored), session).value].senha
    ensures var r := EditProfile(StartUsers(stored), session, nomeIn, atualIn, novaIn);
      && StartUsers(Some(SaveUsers(r.users))) == r.users
      && Author(StartUsers(Some(SaveUsers(r.users))), session) == Text.Trim(nomeIn)
      && (Text.Trim(novaIn) != [] ==>
            Login(StartUsers(Some(SaveUsers(r.users))), other, session.value, novaIn) == LoginOutcome(session, None))
      && (Text.Trim(novaIn) == [] ==>
            Login(StartUsers(Some(SaveUsers(r.users))), other, session.value, atualIn) == LoginOutcome(session, None))
  {
    var users := StartUsers(stored);
    var r := EditProfile(users, session, nomeIn, atualIn, novaIn);
    SaveLoadRoundTrip(BuiltinUsers, r.users);
    BuiltinLoginsCanonical(stored);
    var i := CurrentIndex(users, session).value;
    assert CanonicalLogin(users[i].login);
    EditKeepsCurrentUser(users, session, nomeIn, atualIn, novaIn);
    EditThenLogin(users, session, nomeIn, atualIn, novaIn, other);
  }

  /** A login is canonical when typing it into the login form yields it
      unchanged. */
  ghost predicate CanonicalLogin(login: string) {
    Text.Lower(Text.Trim(login)) == login
  }

  lemma CanonicalWhenPlain(login: string)
    requires login != [] && !Text.IsSpace(login[0]) && !Text.IsSpace(login[|login| - 1])
    requires forall i :: 0 <= i < |login| ==> !Text.IsUpper(login[i])
    ensures CanonicalLogin(login)
  {
    Text.TrimOfTrimmed(login);
    Text.LowerWithoutCapitals(login);
  }

  /** The built-in accounts have distinct canonical logins, and loading saved
      profiles keeps them so. */
  lemma BuiltinLoginsCanonical(stored: Option<SavedUsers>)
    ensures var users := LoadUsers(BuiltinUsers, stored);
      && UniqueLogins(users)
      && forall i :: 0 <= i < |users| ==> CanonicalLogin(users[i].login)
  {
    CanonicalWhenPlain("satina");
    CanonicalWhenPlain("matheus");
    var users := LoadUsers(BuiltinUsers, stored);
    assert users[0].login == "satina" && users[1].login == "matheus";
  }
}

=== FILE: view.dfy ===
/** What `render` shows: one card per category, holding a row for every
    item that passes the search filter, each row reading its check mark and
    comments from the state under the item's key. */
module View {
  import opened Wrappers
  import Text
  import opened Checklist

  /** A category of the static checklist data: its name (`categoria`) and
      its item labels (`itens`). */
  datatype Category = Category(name: string, items: seq<string>)

  /** One rendered item: its key, item, check mark and comments. */
  datatype Row = Row(key: string, item: string, checked: bool, comments: seq<Comment>)

  /** One rendered category: the header and the rows under it. */
  datatype Card = Card(title: string, rows: seq<Row>)

  /** The state key of an item: category name, underscore, item label. */
  function ItemKey(category: string, item: string): string {
    category + "_" + item
  }

  /** The search box's `input` handler stores the typed text lower-cased. */
  function SearchTerm(input: string): (term: string)
    ensures |term| == |input|
    ensures forall i :: 0 <= i < |input| ==> term[i] == Text.LowerChar(input[i])
    ensures term == Text.Lower(term)
  {
    Text.LowerIdempotent(input);
    Text.Lower(input)
  }

  /** An item is shown when there is no search term or its lower-cased item
      contains the term. */
  predicate Shown(term: string, item: string) {
    term == [] || Text.Contains(Text.Lower(item), term)
  }

  /** `!!state[key]?.checked`. */
  function IsChecked(s: State, key: string): bool {
    key in s && s[key].checked == Some(true)
  }

  /** The items of one category that pass the filter, in their order. */
  function Visible(items: seq<string>, term: string): (r: seq<string>)
    ensures forall x :: multiset(r)[x] == if Shown(term, x) then multiset(items)[x] else 0
    ensures term == [] ==> r == items
  {
    if items == [] then []
    else
      var rest := Visible(items[1..], term);
      assert items == [items[0]] + items[1..];
      if Shown(term, items[0]) then [items[0]] + rest else rest
  }

  /** A single item is kept exactly when it passes the filter. */
  lemma VisibleSingle(x: string, term: string)
    ensures Visible([x], term) == if Shown(term, x) then [x] else []
  {
    assert [x][1..] == [];
  }

  /** Filtering keeps the category's order: the filter of a concatenation
      is the concatenation of the filters. */
  lemma {:induction false} VisibleAppend(a: seq<string>, b: seq<string>, term: string)
    ensures Visible(a + b, term) == Visible(a, term) + Visible(b, term)
    decreases |a|
  {
    if a == [] {
      assert a + b == b;
    } else {
      assert (a + b)[0] == a[0];
      assert (a + b)[1..] == a[1..] + b;
      VisibleAppend(a[1..], b, term);
    }
  }

  function RowFor(s: State, category: string, item: string): (row: Row) {
    var key := ItemKey(category, item);
    Row(key, item, IsChecked(s, key), CommentsOf(EntryAt(s, key)))
  }

  function CardFor(s: State, c: Category, term: string): Card {
    var items := Visible(c.items, term);
    Card(c.name, seq(|items|, j requires 0 <= j < |items| => RowFor(s, c.name, items[j])))
  }

  /** The visible rows of every category, one card per category in order;
      a category with no visible item still has its card and header. */
  function Render(cats: seq<Category>, s: State, term: string): (r: seq<Card>)
    ensures |r| == |cats|
    ensures forall i :: 0 <= i < |cats| ==> r[i].title == cats[i].name
    ensures forall i :: 0 <= i < |cats| ==> |r[i].rows| == |Visible(cats[i].items, term)|
    ensures forall i, j :: 0 <= i < |cats| && 0 <= j < |r[i].rows| ==>
      var row := r[i].rows[j];
      && row.item == Visible(cats[i].items, term)[j]
      && row.key == ItemKey(cats[i].name, row.item)
      && (row.checked <==> row.key in s && s[row.key].checked == Some(true))
      && row.comments == (if row.key in s && s[row.key].comments.Some? then s[row.key].comments.value else [])
  {
    seq(|cats|, i requires 0 <= i < |cats| => CardFor(s, cats[i], term))
  }

  /** With a term typed into the search box, an item is shown exactly when
      its lower-cased label contains the lower-cased input: the filter
      ignores case on both sides. */
  lemma ShownIff(input: string, item: string)
    ensures Shown(SearchTerm(input), item) <==>
      input == [] || exists i :: Text.OccursAt(Text.Lower(item), Text.Lower(input), i)
    ensures Shown(SearchTerm(input), item) == Shown(SearchTerm(input), Text.Lower(item))
  {
    Text.ContainsIff(Text.Lower(item), Text.Lower(input));
    Text.LowerIdempotent(item);
  }

  /** No item passes the filter: its list is empty. */
  lemma NothingVisible(items: seq<string>, term: string)
    requires forall j :: 0 <= j < |items| ==> !Shown(term, items[j])
    ensures Visible(items, term) == []
  {
    var r := Visible(items, term);
    forall x ensures multiset(r)[x] == 0 {
      if Shown(term, x) {
        assert x !in items;
      }
    }
    assert multiset(r) == multiset{};
  }

  /** A search that matches no item still shows every category header, with
      no rows under it. */
  lemma NoMatchShowsHeadersOnly(cats: seq<Category>, s: State, term: string)
    requires forall i, j :: 0 <= i < |cats| && 0 <= j < |cats[i].items| ==> !Shown(term, cats[i].items[j])
    ensures var r := Render(cats, s, term);
      |r| == |cats| && forall i :: 0 <= i < |cats| ==> r[i] == Card(cats[i].name, [])
  {
    var r := Render(cats, s, term);
    forall i | 0 <= i < |cats| ensures r[i] == Card(cats[i].name, []) {
      NothingVisible(cats[i].items, term);
    }
  }

  /** With an empty search every item of every category has a row, in order. */
  lemma EmptySearchShowsAll(cats: seq<Category>, s: State)
    ensures var r := Render(cats, s, []);
      forall i :: 0 <= i < |cats| ==>
        |r[i].rows| == |cats[i].items| &&
        forall j :: 0 <= j < |cats[i].items| ==> r[i].rows[j].item == cats[i].items[j]
  {
  }

  /** Item keys are plain concatenations and can collide: two different
      (category, item) pairs may share a key, and so share a check mark and
      comments. */
  lemma KeysCanCollide()
    ensures ItemKey("a_b", "c") == ItemKey("a", "b_c")
  {
  }

  /** In the key of a category without underscores, the first underscore
      is the separator. */
  lemma UnderscoreAfterCategory(c: string, item: string)
    requires '_' !in c
    ensures var k := ItemKey(c, item);
      |c| < |k| && k[|c|] == '_' && forall j :: 0 <= j < |c| ==> k[j] != '_'
  {
    var k := ItemKey(c, item);
    forall j | 0 <= j < |c| ensures k[j] != '_' {
      assert k[j] == c[j];
    }
  }

  /** Within one category, items with the same key are the same item. */
  lemma ItemKeySameCategory(c: string, i1: string, i2: string)
    requires ItemKey(c, i1) == ItemKey(c, i2)
    ensures i1 == i2
  {
    var k := ItemKey(c, i1);
    assert i1 == k[|c| + 1..];
  }

  /** Across categories keys are distinct as long as no category name
      contains an underscore. */
  lemma {:induction false} ItemKeyInjective(c1: string, i1: string, c2: string, i2: string)
    requires '_' !in c1 && '_' !in c2
    requires ItemKey(c1, i1) == ItemKey(c2, i2)
    ensures c1 == c2 && i1 == i2
  {
    var k := ItemKey(c1, i1);
    UnderscoreAfterCategory(c1, i1);
    UnderscoreAfterCategory(c2, i2);
    assert |c1| == |c2|;
    assert c1 == k[..|c1|] == c2;
    assert i1 == k[|c1| + 1..] == i2;
  }

  /** The next render after a check shows the new mark on every row with
      that key, including rows of other items whose key collides with it, and
      changes no row with another key. The check handler itself does not
      re-render: until something else does, other rows keep their old mark. */
  lemma CheckShowsOnRows(cats: seq<Category>, s: State, key: string, value: bool, term: string)
    ensures var before, after := Render(cats, s, term), Render(cats, SetChecked(s, key, value), term);
      forall i, j :: 0 <= i < |cats| && 0 <= j < |after[i].rows| ==>
        if after[i].rows[j].key == key then after[i].rows[j].checked == value
        else after[i].rows[j] == before[i].rows[j]
  {
  }

  /** After a reset every row is unchecked and has no comments. */
  lemma ResetShowsClean(cats: seq<Category>, term: string)
    ensures var r := Render(cats, Reset(), term);
      forall i, j :: 0 <= i < |cats| && 0 <= j < |r[i].rows| ==>
        !r[i].rows[j].checked && r[i].rows[j].comments == []
  {
  }

  /** A posted comment shows up last under every row with the item's key. */
  lemma CommentShowsOnRows(cats: seq<Category>, s: State, key: string, text: string, author: string, term: string)
    requires Text.Trim(text) != []
    ensures var before, after := Render(cats, s, term), Render(cats, AddComment(s, key, text, author), term);
      forall i, j :: 0 <= i < |cats| && 0 <= j < |after[i].rows| ==>
        if after[i].rows[j].key == key then
          after[i].rows[j].comments == before[i].rows[j].comments + [NewComment(author, Text.Trim(text))]
        else after[i].rows[j] == before[i].rows[j]
  {
  }
}

=== FILE: wrappers.dfy ===
/** The optional value used wherever the widget reads something that may be
    missing: a stored field, a session token, a search result. */
module Wrappers {

  datatype Option<+T> = None | Some(value: T) {

    /** Returns the value held in Some, or `default` when None. */
    function GetOr(default: T): T {
      match this
      case Some(v) => v
      case None => default
    }
  }
}
